=== FILE: README.md ===
# Go-Back-N ARQ: receiver and sender state machines

This project models the two ends of a small Go-Back-N automatic repeat
request protocol over datagrams, and proves properties of the model.

- The **receiver** (`server.py`) keeps the payloads it has accepted and the
  next sequence number it expects. It accepts only the in-order Data frame and
  answers each Data frame with a cumulative ack. A Start frame resets the
  session and is answered with Ack(0). A Stop frame is answered with an ack of
  the Stop's own number; it writes the payloads out capitalized and ends the
  serve loop. An Ack frame or a frame of unknown kind gets no answer and makes
  the receiver fail. A
  fault injector sits on the reply path. It corrupts the ack numbered 2 to
  99999 at most once per session. It suppresses the reply numbered 8 at most
  once per session. Each fault fires only if a reply with that number occurs.
- The **sender** (`client.py`) builds the frames Start(0), Data(1..N) and
  Stop(N+1) from N records. It then loops. Each turn it transmits what the
  window allows, waits for one reply or a timeout, and updates `pending` (the
  oldest unacknowledged frame) and `toSend` (the next frame to transmit).

Both ends are modelled as immutable state records with pure step functions.
The frame encoding is replaced by the `Frames.Frame` datatype. The sender's
wait is replaced by an explicit poll outcome, `Client.Poll`: a reply frame,
or `Silence` for a timeout.

Modules:

| file | module | models |
|---|---|---|
| `wrappers.dfy` | `Wrappers` | `Option` and `Result` |
| `frames.dfy` | `Frames` | the frame kinds: Start, Data, Stop, Ack, and a frame with an unknown type tag |
| `server.dfy` | `Server` | the receiver's state, the handlers, the fault injector and the serve loop |
| `client.dfy` | `Client` | building the outbound frames, the send loop, ack handling, timeouts and the transmit loop |
| `session.dfy` | `Session` | properties that join the two ends |

Three behaviours of the code that a reader might not expect:

- The window bound `toSend - pending <= window` does not hold at all times.
  An ack more than one below `pending` moves `pending` backwards and leaves
  `toSend` where it was (client.py:95-96). `Client.WindowBoundNotInvariant`
  gives a run that breaks the bound.
- After the injected corruption of Ack(2) the sender stalls. The corrupted
  ack 99999 (server.py:142-145) is ahead of `pending`, so the sender rewinds
  to 2 and keeps `pending = 2` (client.py:92-94). By then the receiver has
  accepted frames 2 and 3 from the same window, so its later replies are 3,
  4 and so on. Every one of them is ahead of `pending` and is again treated
  as a sequencing error. `Session.StalledAfterReceiverMovesAhead` proves that
  no later reply can advance the sender.
- An Ack frame or a frame of unknown kind makes the receiver fail. The
  dispatch returns no reply for them (server.py:80-89), and the injector then
  subscripts that missing reply (server.py:140). `Server.Step` returns a
  `Failure` for those frames.

## Model

| member | source | states |
|---|---|---|
| Server.Init | server.py:18-28 | A new receiver has accepted nothing, and its expected number equals its payload count; both faults are armed and it is not exiting |
| Server.Capitalize | server.py:134 | The capitalized record has the same length; its first letter is upper case and every other letter is lower case |
| Server.CapitalizeIdempotent | server.py:134 | Capitalizing a record that is already capitalized leaves it unchanged |
| Server.Dump | server.py:131-134 | The output has one line per accepted payload, in order, and each line is that payload capitalized |
| Server.Reset | server.py:121-129 | Reset empties the buffer, sets the expected number to 0 and re-arms both faults |
| Server.HandleStart | server.py:91-94 | A Start frame leaves an empty buffer, next expected 1, both faults armed and the session invariant; the reply is Ack(0) |
| Server.HandleData | server.py:102-113 | The expected Data frame appends exactly its payload and advances the expected number by one; any other Data frame changes nothing; either way the reply acks the post-step expected number minus one |
| Server.HandleStop | server.py:96-100 | A Stop(n) frame sets the exit flag, keeps the buffer and expected number, writes the capitalized buffer, and replies Ack(n) |
| Server.HandlePacket | server.py:77-89 | An Ack or unknown frame gets no reply and changes no state; only Stop writes output; only Start touches the fault flags |
| Server.StartIsolatesSessions | server.py:91-94 | After a Start frame the receiver's state and reply do not depend on its earlier history |
| Server.HandlePacketKeepsSession | server.py:102-113 | Once a Start has been handled, every frame keeps the buffer length one below the expected number; a Start re-establishes it from any state |
| Server.HandlePacketKeepsBeforeSession | server.py:18-19 | Before any Start, frames other than Start keep the buffer length equal to the expected number (the count starts at 0) |
| Server.DataAckIsCumulative | server.py:113 | Within a session the ack for any Data frame equals the number of payloads accepted so far; the buffer grows by one exactly when the frame was the expected one |
| Server.Inject | server.py:139-152 | Corrupts the ack to 99999 exactly when its fault is armed and the ack is 2, and then disarms that fault; otherwise drops the reply exactly when the other fault is armed and the ack is 8, and disarms that one; otherwise passes the reply and flags through unchanged; flags only go from armed to disarmed |
| Server.InjectOnlyDisarms | server.py:142-150 | The injector never changes the buffer, the expected number or the exit flag, and a fault that fired is disarmed afterwards |
| Server.Step | server.py:53-54 | Handling then injecting fails exactly for Ack and unknown frames; otherwise the session fields and the output written are the handler's, and the reply is the handler's unless a fault fired |
| Server.Serve | server.py:42-57 | The serve loop reads at most the frames given; it stops early only on a failure or once a Stop frame has been handled, and reads nothing once exiting |
| Server.FaultsFireOncePerSession | server.py:126-129 | With no Start frame in between, each fault fires at most once, and not at all if it starts disarmed; a disarmed fault stays disarmed |
| Server.ServeBeforeSession | server.py:18-19 | A receiver that has never seen a Start keeps its payload count equal to its expected number over any Start-free frame sequence, so before a session Data frames are accepted from number 0 |
| Server.ServeKeepsSession | server.py:42-57 | Once the session invariant holds, it holds after the serve loop has handled any sequence of frames |
| Server.StartedSessionKeepsInvariant | server.py:91-94 | Any frame sequence that begins with Start leaves the buffer length one below the expected number |
| Server.RepliesNeverBelow | server.py:113 | Without a Start, once the expected number exceeds a floor, every reply (including a corrupted one) is numbered at least that floor, given Stop frames numbered at least the floor |
| Server.RepliesAtLeastMinusOne | server.py:113 | Over any frames, Start included, every reply is numbered at least -1, because the expected number never goes below 0, provided no Stop frame is numbered below -1 |
| Client.DataRun | client.py:66-67 | The Data frames for a list of records carry the records in order, numbered consecutively from the first number |
| Client.Populate | client.py:61-69 | N records give N+2 frames: Start(0) first, Stop(N+1) last, Data(i, record i-1) in between, and each frame's number equals its position; this also fixes what the three frame builders at client.py:113-130 produce (a Start numbered 0, a Data frame carrying its number and record, a Stop numbered one past the last record) |
| Client.PopulateRoundTrip | client.py:125-130 | Reading back the Data payloads of the outbound frames gives exactly the records they were built from |
| Client.InitClient | client.py:10-24 | A fresh sender holds the built frames and starts with nothing sent, nothing acknowledged and no timeouts |
| Client.PyIndex | client.py:73 | Reading `buffer[to_send]` with a negative position counts back from the end of the list; positions below minus the length are not readable |
| Client.Transmit | client.py:71-78 | The send phase changes only the send position and never moves it backwards; it stops with the list exhausted or the window full; a full window on entry sends nothing; the frames sent are the list's frames from the old to the new position, in order |
| Client.WindowEnd | client.py:72 | The send phase never moves backwards; when it sends anything the window was not full and it stops within the list |
| Client.Send | client.py:71-78 | The loop terminates and never decreases the send position; the frames sent are exactly the frames from the old to the new position, in order; afterwards the list is exhausted or the window is full; if the window was full on entry nothing is sent and nothing changes |
| Client.Receive | client.py:80-96 | Any reply resets the timeout count; an ack ahead of `pending` keeps `pending` and rewinds the send position to it; any other ack sets `pending` one past it and keeps the send position; `pending` grows by at most one |
| Client.StaleAckMovesPendingBack | client.py:95-96 | An ack more than one below `pending` moves `pending` backwards without touching the send position |
| Client.OnTimeout | client.py:51-59 | A timeout adds one to the count; the sender gives up exactly when the count reaches the maximum, and otherwise rewinds the send position to `pending` and keeps `pending` |
| Client.Round | client.py:39-59 | One turn fails exactly when the send position cannot be indexed, gives up exactly on a timeout at the limit, always sends the window's frames first, and a reply resets the timeout count |
| Client.Run | client.py:33-59 | The loop stops before sending anything once `pending` reaches the end of the list, and reports completion only then; giving up means the timeout limit was reached; `pending` and the send position never exceed the list's length; if they start within the list and no reply is numbered below -1, they stay within it and no index error occurs |
| Client.SilenceAtLimitGivesUp | client.py:53-57 | A timeout that reaches the limit ends the loop after that one wait, and the only frames sent are those of the send phase before it |
| Client.SilentReceiverWithLimitOne | client.py:40-57 | With a limit of one and no reply, a fresh sender sends its first window once and gives up after exactly one timeout |
| Client.AheadAcksNeverAdvance | client.py:92-94 | If every reply is ahead of `pending`, the loop never completes, never times out and `pending` never moves |
| Client.WindowBoundNotInvariant | client.py:95-96 | A fresh sender with eight records that receives Ack(0), Ack(1), Ack(0) has six frames outstanding in a window of five |
| Session.ServeDataThenStop | server.py:102-113 | In-order Data frames followed by Stop are all accepted, appended in order, written out and end the session |
| Session.InOrderDeliveryAcceptsAll | server.py:42-57 | Fed the sender's frames in order, the receiver ends holding exactly the sender's records, writes them capitalized, keeps the session invariant and does not fail, whatever faults fire |
| Session.CorruptedAckForcesResend | server.py:142-145 | The corrupted ack is numbered ahead of any sender still short of 99999, so the sender keeps `pending` and rewinds to it |
| Session.StalledAfterReceiverMovesAhead | client.py:92-94 | Once the receiver has accepted frames past `pending`, none of its later replies to Data or late Stop frames can advance the sender |
| Session.SenderStaysInList | client.py:92-96 | Driven by the receiver's replies, a sender whose `pending` and send position lie within its list keeps them there and never indexes outside it |

## Left out

- Sockets, binding, `recvfrom`/`sendto` and epoll polling are I/O. A wait for a reply is an explicit `Client.Poll` value instead.
- The artificial three-second delay and the two-second timeout are timing. The model has no clock.
- The receiver continues after a failed bind. That failure path is I/O and is not modelled.
- The JSON encoding and decoding of frames and the string form of field keys are library calls. `Frames.Frame` replaces them.
- A non-empty datagram that fails to decode reaches the handler as no value and crashes it (server.py:48-53, 78). An empty datagram is skipped before the handler (server.py:50-51). The model assumes well-formed frames; skipping a datagram has the same effect as leaving it out of the frame sequence.
- The numeric values of the four type tags live in a module that is not part of this model. The kinds are constructors instead.
- Reading the input file and stripping its lines is file I/O. `Client.Populate` takes the records as given.
- Writing the output file is file I/O. The model keeps the lines written, `Server.Dump`. It leaves out the newline after each line and the file encoding.
- Server.Capitalize: covers ASCII letters only. The language's full Unicode case mapping and title-casing of the first character are not modelled.
- Logging output has no behavioural effect and is not modelled.
- The receiver's ignored `window` constructor argument has no behavioural effect.
- The sender does not close its socket when it gives up after too many timeouts. That is resource handling, not protocol state.
- Client.Run: it covers a sequence of poll outcomes supplied in advance. It does not model the two processes running concurrently, so no lemma claims completion for the combined system.

=== FILE: client.dfy ===
/**
  The sender: it builds the whole outbound frame sequence once, then loops
  over {transmit what the window allows, wait for one reply or a timeout,
  update the window}. Sockets, polling and clocks are replaced by an explicit
  `Poll` outcome per turn of the loop.
 */
module Client {
  import opened Frames

  /** The window the sender is configured with. */
  const DefaultWindow := 5
  /** Consecutive timeouts after which the sender gives up. */
  const MaxConsecutiveTimeouts := 3

  /** The sender's session fields. */
  datatype ClientState = ClientState(
    outbound: seq<Frame>,  // Start, Data 1..N, Stop, built once
    window: int,           // frames that may be sent ahead of `pending`
    pending: int,          // the oldest frame not yet acknowledged
    toSend: int,           // the next frame to transmit
    timeouts: int,         // consecutive timeouts so far
    maxTimeouts: int       // give up when `timeouts` reaches this
  )

  // ---------------------------------------------------------------------------
  // Building the outbound sequence

  /** Data frames numbered from `first` carrying `records` in order. */
  function DataRun(records: seq<string>, first: int): (r: seq<Frame>)
    ensures |r| == |records|
    ensures forall i :: 0 <= i < |records| ==> r[i] == Data(first + i, records[i])
  {
    seq(|records|, i requires 0 <= i < |records| => Data(first + i, records[i]))
  }

  /** The outbound sequence for a list of records: a Start frame, one Data
      frame per record, and a Stop frame, each numbered by its position.
      The three frame kinds are built directly by their constructors. */
  function Populate(records: seq<string>): (r: seq<Frame>)
    ensures |r| == |records| + 2
    ensures r[0] == Start(0)
    ensures r[|records| + 1] == Stop(|records| + 1)
    ensures forall i :: 1 <= i <= |records| ==> r[i] == Data(i, records[i - 1])
    ensures forall i :: 0 <= i < |r| ==> r[i].number == i
  {
    [Start(0)] + DataRun(records, 1) + [Stop(|records| + 1)]
  }

  /** The payloads of the Data frames of a frame sequence, in order. */
  function Payloads(frames: seq<Frame>): seq<string>
  {
    if |frames| == 0 then []
    else (if frames[0].Data? then [frames[0].payload] else []) + Payloads(frames[1..])
  }

  lemma {:induction false} PayloadsAppend(a: seq<Frame>, b: seq<Frame>)
    ensures Payloads(a + b) == Payloads(a) + Payloads(b)
    decreases |a|
  {
    if |a| == 0 {
      assert a + b == b;
    } else {
      assert (a + b)[1..] == a[1..] + b;
      PayloadsAppend(a[1..], b);
    }
  }

  lemma {:induction false} PayloadsOfDataRun(records: seq<string>, first: int)
    ensures Payloads(DataRun(records, first)) == records
    decreases |records|
  {
    if |records| > 0 {
      var d := DataRun(records, first);
      assert d[1..] == DataRun(records[1..], first + 1);
      PayloadsOfDataRun(records[1..], first + 1);
      assert records == [records[0]] + records[1..];
    }
  }

  /** The outbound sequence carries exactly the records it was built from:
      reading back the Data payloads gives the input list. */
  lemma PopulateRoundTrip(records: seq<string>)
    ensures Payloads(Populate(records)) == records
  {
    var d := DataRun(records, 1);
    PayloadsAppend([Start(0)] + d, [Stop(|records| + 1)]);
    PayloadsAppend([Start(0)], d);
    PayloadsOfDataRun(records, 1);
    assert Payloads([Stop(|records| + 1)]) == [];
    assert Payloads([Start(0)]) == [];
  }

  /** A fresh sender for a list of records. */
  function InitClient(records: seq<string>, window: int, maxTimeouts: int): (s: ClientState)
    ensures s.outbound == Populate(records)
    ensures s.window == window && s.maxTimeouts == maxTimeouts
    ensures s.pending == 0 && s.toSend == 0 && s.timeouts == 0
  {
    ClientState(Populate(records), window, 0, 0, 0, maxTimeouts)
  }

  // ---------------------------------------------------------------------------
  // The send phase

  /** List indexing as the program does it: a negative index counts back from
      the end of the list. */
  function PyIndex(xs: seq<Frame>, i: int): (f: Frame)
    requires -|xs| <= i < |xs|
    ensures 0 <= i ==> f == xs[i]
    ensures i < 0 ==> f == xs[|xs| + i]
  {
    if 0 <= i then xs[i] else xs[|xs| + i]
  }

  /** The send phase does not index outside the list: either the next frame
      to send is a valid (possibly negative) index, or the window is already
      full and nothing is indexed. Otherwise the program raises an error. */
  predicate Indexable(s: ClientState)
  {
    -|s.outbound| <= s.toSend || s.window <= s.toSend - s.pending
  }

  function Min(a: int, b: int): int
  {
    if a <= b then a else b
  }

  /** Where the send phase stops: it sends nothing when the list is
      exhausted or the window is full, and otherwise fills the window up to
      the end of the list. */
  function WindowEnd(s: ClientState): (e: int)
    ensures s.toSend <= e
    ensures s.toSend < e ==> s.toSend - s.pending < s.window && e <= |s.outbound|
  {
    if |s.outbound| <= s.toSend || s.window <= s.toSend - s.pending then s.toSend
    else Min(|s.outbound|, s.pending + s.window)
  }

  /** The send phase as a function: the new state and the frames sent. It
      changes only the send position, never moves it backwards, and stops
      with the list exhausted or the window full. */
  function Transmit(s: ClientState): (r: (ClientState, seq<Frame>))
    requires Indexable(s)
    ensures r.0 == s.(toSend := WindowEnd(s))
    ensures s.toSend <= r.0.toSend
    ensures |s.outbound| <= r.0.toSend || s.window <= r.0.toSend - s.pending
    ensures s.window <= s.toSend - s.pending ==> r.0 == s && r.1 == []
    ensures |r.1| == WindowEnd(s) - s.toSend
    ensures forall i :: 0 <= i < |r.1| ==> r.1[i] == PyIndex(s.outbound, s.toSend + i)
    ensures 0 <= s.toSend <= |s.outbound| ==>
      r.0.toSend <= |s.outbound| && r.1 == s.outbound[s.toSend..r.0.toSend]
  {
    var n := WindowEnd(s) - s.toSend;
    (s.(toSend := WindowEnd(s)),
     seq(n, i requires 0 <= i < n => PyIndex(s.outbound, s.toSend + i)))
  }

  /** The send loop: transmit the next frame while there is one and the
      window is not full. */
  method Send(s: ClientState) returns (s': ClientState, sent: seq<Frame>)
    requires Indexable(s)
    ensures s'.toSend == WindowEnd(s)
    ensures s' == s.(toSend := s'.toSend)
    ensures s.toSend <= s'.toSend
    ensures |s.outbound| <= s'.toSend || s.window <= s'.toSend - s.pending
    ensures s.window <= s.toSend - s.pending ==> s' == s && sent == []
    ensures |sent| == s'.toSend - s.toSend
    ensures forall i :: 0 <= i < |sent| ==> sent[i] == PyIndex(s.outbound, s.toSend + i)
    ensures 0 <= s.toSend <= |s.outbound| ==>
      s'.toSend <= |s.outbound| && sent == s.outbound[s.toSend..s'.toSend]
    ensures (s', sent) == Transmit(s)
  {
    var next := s.toSend;
    sent := [];
    while next < |s.outbound| && next - s.pending < s.window
      invariant s.toSend <= next <= WindowEnd(s)
      invariant -|s.outbound| <= next || s.window <= next - s.pending
      invariant |sent| == next - s.toSend
      invariant forall i :: 0 <= i < |sent| ==> sent[i] == PyIndex(s.outbound, s.toSend + i)
      decreases |s.outbound| - next
    {
      sent := sent + [PyIndex(s.outbound, next)];
      next := next + 1;
    }
    s' := s.(toSend := next);
    assert sent == Transmit(s).1;
  }

  // ---------------------------------------------------------------------------
  // Replies and timeouts

  /** Handle one reply. Any reply counts as liveness. An ack numbered ahead of
      `pending` is treated as a sequencing error and forces the window to be
      sent again; any other ack sets `pending` just past it, which can move
      `pending` backwards. */
  function Receive(s: ClientState, reply: Frame): (r: ClientState)
    ensures r.timeouts == 0
    ensures r == s.(timeouts := 0, pending := r.pending, toSend := r.toSend)
    ensures reply.number > s.pending ==> r.pending == s.pending && r.toSend == s.pending
    ensures reply.number <= s.pending ==> r.pending == reply.number + 1 && r.toSend == s.toSend
    ensures r.pending <= s.pending + 1
  {
    if reply.number > s.pending then s.(timeouts := 0, toSend := s.pending)
    else s.(timeouts := 0, pending := reply.number + 1)
  }

  /** An ack older than the one before `pending` moves `pending` backwards. */
  lemma StaleAckMovesPendingBack(s: ClientState, n: int)
    requires n + 1 < s.pending
    ensures Receive(s, Ack(n)).pending < s.pending
    ensures Receive(s, Ack(n)).toSend == s.toSend
  {
  }

  /** What a timeout leads to: retransmitting the window, or giving up. */
  datatype AfterTimeout = Retransmit(state: ClientState) | GiveUp(state: ClientState)

  /** Count the timeout; give up at the limit, otherwise rewind the send
      position to the oldest unacknowledged frame. */
  function OnTimeout(s: ClientState): (r: AfterTimeout)
    ensures r.state.timeouts == s.timeouts + 1
    ensures r.GiveUp? <==> s.maxTimeouts <= s.timeouts + 1
    ensures r.GiveUp? ==> r.state == s.(timeouts := s.timeouts + 1)
    ensures r.Retransmit? ==> r.state == s.(timeouts := s.timeouts + 1, toSend := s.pending)
  {
    var t := s.(timeouts := s.timeouts + 1);
    if s.maxTimeouts <= t.timeouts then GiveUp(t) else Retransmit(t.(toSend := t.pending))
  }

  // ---------------------------------------------------------------------------
  // The transmit loop

  /** Every frame has been acknowledged: the loop stops before sending. */
  predicate Finished(s: ClientState)
  {
    |s.outbound| <= s.pending
  }

  /** What one wait for a reply yields. */
  datatype Poll = Reply(frame: Frame) | Silence

  /** One turn of the loop after the completion check. */
  datatype RoundOut =
    | Continue(state: ClientState, sent: seq<Frame>)
    | GaveUp(state: ClientState, sent: seq<Frame>)
    | Crashed(state: ClientState)

  function Round(s: ClientState, p: Poll): (r: RoundOut)
    requires !Finished(s)
    ensures r.Crashed? <==> !Indexable(s)
    ensures r.GaveUp? <==> Indexable(s) && p.Silence? && s.maxTimeouts <= s.timeouts + 1
    ensures !r.Crashed? ==> r.sent == Transmit(s).1
    ensures r.Continue? && p.Reply? ==> r.state.timeouts == 0
  {
    if !Indexable(s) then Crashed(s)
    else
      var (s1, sent) := Transmit(s);
      match p
      case Reply(f) => Continue(Receive(s1, f), sent)
      case Silence =>
        match OnTimeout(s1)
        case Retransmit(s2) => Continue(s2, sent)
        case GiveUp(s2) => GaveUp(s2, sent)
  }

  /** How the loop ended: every frame acknowledged, too many consecutive
      timeouts, an index error in the send phase, or still waiting because
      no further poll outcome was supplied. */
  datatype Outcome = Completed | TimedOut | IndexError | Waiting

  datatype RunResult = RunResult(outcome: Outcome, state: ClientState, sent: seq<Frame>, polled: nat)

  /** `pending` and the send position never exceed the list's length. */
  predicate Bounded(s: ClientState)
  {
    s.pending <= |s.outbound| && s.toSend <= |s.outbound|
  }

  /** `pending` and the send position are positions of the list or its end. */
  predicate InList(s: ClientState)
  {
    0 <= s.pending <= |s.outbound| && 0 <= s.toSend <= |s.outbound|
  }

  /** Every reply among the poll outcomes is numbered at least `floor`. */
  predicate RepliesAtLeast(polls: seq<Poll>, floor: int)
  {
    forall i :: 0 <= i < |polls| && polls[i].Reply? ==> floor <= polls[i].frame.number
  }

  /** The transmit loop, driven by one poll outcome per turn. */
  function Run(s: ClientState, polls: seq<Poll>): (r: RunResult)
    ensures Finished(s) ==> r == RunResult(Completed, s, [], 0)
    ensures r.outcome == Completed <==> Finished(r.state)
    ensures r.outcome == TimedOut ==> r.state.maxTimeouts <= r.state.timeouts
    ensures r.outcome == IndexError ==> !Indexable(r.state)
    ensures r.outcome == Waiting ==> r.polled == |polls|
    ensures r.polled <= |polls|
    ensures r.state.outbound == s.outbound && r.state.window == s.window
    ensures r.state.maxTimeouts == s.maxTimeouts
    ensures Bounded(s) ==> Bounded(r.state)
    ensures InList(s) && RepliesAtLeast(polls, -1) ==> InList(r.state) && r.outcome != IndexError
    decreases |polls|
  {
    if Finished(s) then RunResult(Completed, s, [], 0)
    else if |polls| == 0 then RunResult(Waiting, s, [], 0)
    else
      match Round(s, polls[0])
      case Crashed(s1) => RunResult(IndexError, s1, [], 0)
      case GaveUp(s1, sent) => RunResult(TimedOut, s1, sent, 1)
      case Continue(s1, sent) =>
        assert RepliesAtLeast(polls, -1) ==> RepliesAtLeast(polls[1..], -1) by {
          if RepliesAtLeast(polls, -1) {
            forall i | 0 <= i < |polls[1..]| && polls[1..][i].Reply?
              ensures -1 <= polls[1..][i].frame.number
            {
              assert polls[1..][i] == polls[i + 1];
            }
          }
        }
        var r := Run(s1, polls[1..]);
        RunResult(r.outcome, r.state, sent + r.sent, r.polled + 1)
  }

  // ---------------------------------------------------------------------------
  // Properties of the transmit loop

  /** A timeout that reaches the limit ends the loop at once: the only frames
      sent are those of the send phase just before the wait. */
  lemma SilenceAtLimitGivesUp(s: ClientState, rest: seq<Poll>)
    requires !Finished(s) && Indexable(s)
    requires s.maxTimeouts <= s.timeouts + 1
    ensures Run(s, [Silence] + rest).outcome == TimedOut
    ensures Run(s, [Silence] + rest).sent == Transmit(s).1
    ensures Run(s, [Silence] + rest).polled == 1
  {
  }

  /** With a limit of one timeout and a silent receiver, a fresh sender
      transmits its first window once and gives up after exactly one wait. */
  lemma SilentReceiverWithLimitOne(records: seq<string>, rest: seq<Poll>)
    ensures Run(InitClient(records, DefaultWindow, 1), [Silence] + rest).outcome == TimedOut
    ensures Run(InitClient(records, DefaultWindow, 1), [Silence] + rest).polled == 1
    ensures Run(InitClient(records, DefaultWindow, 1), [Silence] + rest).sent
         == Populate(records)[..Min(|records| + 2, DefaultWindow)]
  {
    var s := InitClient(records, DefaultWindow, 1);
    SilenceAtLimitGivesUp(s, rest);
    assert Transmit(s).1 == Populate(records)[..Min(|records| + 2, DefaultWindow)];
  }

  /** Replies numbered ahead of `pending` never advance the window: the
      sender keeps re-sending from `pending`, never completes and never times
      out, however many such replies arrive. */
  lemma {:induction false} AheadAcksNeverAdvance(s: ClientState, polls: seq<Poll>)
    requires !Finished(s)
    requires 0 <= s.pending && 0 <= s.toSend
    requires forall i :: 0 <= i < |polls| ==> polls[i].Reply? && polls[i].frame.number > s.pending
    ensures Run(s, polls).outcome == Waiting
    ensures Run(s, polls).state.pending == s.pending
    ensures |polls| > 0 ==> Run(s, polls).state.timeouts == 0
    decreases |polls|
  {
    if |polls| > 0 {
      assert Indexable(s);
      var s1 := Round(s, polls[0]).state;
      assert s1.pending == s.pending && s1.toSend == s.pending;
      forall i | 0 <= i < |polls[1..]|
        ensures polls[1..][i].Reply? && polls[1..][i].frame.number > s1.pending
      {
        assert polls[1..][i] == polls[i + 1];
      }
      AheadAcksNeverAdvance(s1, polls[1..]);
    }
  }

  /** The window bound `toSend - pending <= window` is not an invariant of the
      loop: a fresh sender with eight records and the replies Ack(0), Ack(1),
      Ack(0) ends with six frames outstanding in a window of five. */
  lemma WindowBoundNotInvariant()
    ensures
      var records := ["a", "b", "c", "d", "e", "f", "g", "h"];
      var r := Run(InitClient(records, DefaultWindow, MaxConsecutiveTimeouts),
                   [Reply(Ack(0)), Reply(Ack(1)), Reply(Ack(0))]);
      r.outcome == Waiting && r.state.toSend - r.state.pending > r.state.window
  {
    var records := ["a", "b", "c", "d", "e", "f", "g", "h"];
    var polls := [Reply(Ack(0)), Reply(Ack(1)), Reply(Ack(0))];
    var s0 := InitClient(records, DefaultWindow, MaxConsecutiveTimeouts);
    assert |s0.outbound| == 10;
    var s1 := Round(s0, polls[0]).state;
    assert s1.toSend == 5 && s1.pending == 1;
    var s2 := Round(s1, polls[1]).state;
    assert s2.toSend == 6 && s2.pending == 2;
    var s3 := Round(s2, polls[2]).state;
    assert s3.toSend == 7 && s3.pending == 1;
    assert polls[1..][1..] == [polls[2]];
    assert polls[1..][1..][1..] == [];
    assert Run(s3, []) == RunResult(Waiting, s3, [], 0);
  }
}

=== FILE: frames.dfy ===
/**
  The frames exchanged between sender and receiver.

  On the wire a frame is a structured record with an integer type tag, an
  integer sequence number and, for data frames only, a text payload. The four
  tags the protocol knows become four constructors; a record whose tag is
  none of them becomes `Unknown`. Every constructor carries `number`, because
  every frame the program builds has a sequence number (the sender's Start
  frame uses 0) and the sender reads it from any reply without looking at the
  tag. The encoding itself is not modelled.
 */
module Frames {

  datatype Frame =
    | Start(number: int)
    | Data(number: int, payload: string)
    | Stop(number: int)
    | Ack(number: int)
    | Unknown(tag: int, number: int)
}

=== FILE: server.dfy ===
/**
  The receiver: one session of accepted payloads, the cumulative-ack rule,
  the single-shot fault injector wrapped around its replies, and the blocking
  serve loop that feeds it one inbound frame at a time.
 */
module Server {
  import opened Wrappers
  import opened Frames

  /** Reply number that replaces the ack when the ack-corruption fault fires. */
  const SeqErrorNum := 99999
  /** Ack number on which the ack-corruption fault fires. */
  const AckErrorFrame := 2
  /** Ack number on which the reply-suppression (timeout) fault fires. */
  const TimeoutErrorFrame := 8

  /** The receiver's fields that the protocol reads or writes. */
  datatype ServerState = ServerState(
    buffer: seq<string>,      // accepted payloads, in order
    nextExpected: nat,        // sequence number of the next Data frame to accept
    ackErrorArmed: bool,      // the ack-corruption fault has not fired this session
    timeoutErrorArmed: bool,  // the reply-suppression fault has not fired this session
    exiting: bool             // a Stop frame has been handled; the serve loop ends
  )

  /** The state of a freshly constructed receiver. */
  function Init(): (s: ServerState)
    ensures BeforeSession(s) && |s.buffer| == 0
    ensures s.ackErrorArmed && s.timeoutErrorArmed && !s.exiting
  {
    ServerState([], 0, true, true, false)
  }

  /** Once a Start frame has opened the session, the next expected sequence
      number is always one past the number of accepted payloads. */
  predicate InSession(s: ServerState)
  {
    |s.buffer| + 1 == s.nextExpected
  }

  /** Before any Start frame the count starts at 0 instead of 1. */
  predicate BeforeSession(s: ServerState)
  {
    |s.buffer| == s.nextExpected
  }

  // ---------------------------------------------------------------------------
  // The output written on Stop

  function UpperAscii(c: char): char
  {
    if 'a' <= c <= 'z' then (c as int - 32) as char else c
  }

  function LowerAscii(c: char): char
  {
    if 'A' <= c <= 'Z' then (c as int + 32) as char else c
  }

  /** A record in capitalized form: its first letter upper case and the rest
      lower case, for ASCII letters. */
  function Capitalize(w: string): (r: string)
    ensures |r| == |w|
    ensures |w| > 0 ==> r[0] == UpperAscii(w[0]) && !('a' <= r[0] <= 'z')
    ensures forall i :: 0 < i < |w| ==> r[i] == LowerAscii(w[i]) && !('A' <= r[i] <= 'Z')
  {
    if |w| == 0 then w
    else [UpperAscii(w[0])] + seq(|w| - 1, i requires 0 <= i < |w| - 1 => LowerAscii(w[i + 1]))
  }

  /** Capitalizing twice gives the same record as capitalizing once. */
  lemma CapitalizeIdempotent(w: string)
    ensures Capitalize(Capitalize(w)) == Capitalize(w)
  {
    var c := Capitalize(w);
    var cc := Capitalize(c);
    assert |cc| == |c|;
    forall i | 0 <= i < |c|
      ensures cc[i] == c[i]
    {
      if i == 0 {
        assert cc[0] == UpperAscii(c[0]);
      } else {
        assert cc[i] == LowerAscii(c[i]);
      }
    }
  }

  /** The lines written to the output file on Stop: one per accepted payload,
      in order, each capitalized. */
  function Dump(buffer: seq<string>): (lines: seq<string>)
    ensures |lines| == |buffer|
    ensures forall i :: 0 <= i < |buffer| ==> lines[i] == Capitalize(buffer[i])
  {
    seq(|buffer|, i requires 0 <= i < |buffer| => Capitalize(buffer[i]))
  }

  // ---------------------------------------------------------------------------
  // Dispatch on the inbound frame

  /** What handling one frame produces: the new state, the reply (absent for
      frames the receiver ignores) and, on Stop, the lines written out. */
  datatype Handled = Handled(state: ServerState, reply: Option<Frame>, written: Option<seq<string>>)

  /** Clear the session and re-arm both faults. */
  function Reset(s: ServerState): (r: ServerState)
    ensures r.buffer == [] && r.nextExpected == 0
    ensures r.ackErrorArmed && r.timeoutErrorArmed
    ensures r.exiting == s.exiting
  {
    s.(buffer := [], nextExpected := 0, ackErrorArmed := true, timeoutErrorArmed := true)
  }

  /** A Start frame opens a new session whatever came before and is
      acknowledged with sequence number 0. */
  function HandleStart(s: ServerState): (h: Handled)
    ensures h.state.buffer == [] && h.state.nextExpected == 1
    ensures h.state.ackErrorArmed && h.state.timeoutErrorArmed
    ensures h.state.exiting == s.exiting
    ensures h.reply == Some(Ack(0)) && h.written == None
    ensures InSession(h.state)
  {
    var r := Reset(s);
    Handled(r.(nextExpected := r.nextExpected + 1), Some(Ack(0)), None)
  }

  /** A Data frame is accepted only when it is the one expected next; the
      reply is the cumulative ack of the last accepted frame either way. */
  function HandleData(s: ServerState, seqNum: int, payload: string): (h: Handled)
    ensures seqNum == s.nextExpected ==>
      h.state == s.(buffer := s.buffer + [payload], nextExpected := s.nextExpected + 1)
    ensures seqNum != s.nextExpected ==> h.state == s
    ensures h.reply == Some(Ack(h.state.nextExpected - 1))
    ensures h.written == None
  {
    var s' := if s.nextExpected == seqNum
      then s.(buffer := s.buffer + [payload], nextExpected := s.nextExpected + 1)
      else s;
    Handled(s', Some(Ack(s'.nextExpected - 1)), None)
  }

  /** A Stop frame writes out the accepted payloads, ends the serve loop and
      is acknowledged with its own sequence number. */
  function HandleStop(s: ServerState, seqNum: int): (h: Handled)
    ensures h.state == s.(exiting := true)
    ensures h.reply == Some(Ack(seqNum))
    ensures h.written == Some(Dump(s.buffer))
  {
    Handled(s.(exiting := true), Some(Ack(seqNum)), Some(Dump(s.buffer)))
  }

  /** Dispatch by frame kind; an Ack or a frame of unknown kind is ignored. */
  function HandlePacket(s: ServerState, f: Frame): (h: Handled)
    ensures (f.Ack? || f.Unknown?) <==> h.reply.None?
    ensures (f.Ack? || f.Unknown?) ==> h.state == s && h.written == None
    ensures h.written.Some? <==> f.Stop?
    ensures !f.Start? ==>
      h.state.ackErrorArmed == s.ackErrorArmed && h.state.timeoutErrorArmed == s.timeoutErrorArmed
  {
    match f
    case Start(_) => HandleStart(s)
    case Data(n, p) => HandleData(s, n, p)
    case Stop(n) => HandleStop(s, n)
    case Ack(_) => Handled(s, None, None)
    case Unknown(_, _) => Handled(s, None, None)
  }

  // ---------------------------------------------------------------------------
  // Properties of the dispatch

  /** Session isolation: after a Start frame nothing of the previous session
      survives, so two receivers that differ only in their history agree. */
  lemma StartIsolatesSessions(s1: ServerState, s2: ServerState, n1: int, n2: int)
    requires s1.exiting == s2.exiting
    ensures HandlePacket(s1, Start(n1)) == HandlePacket(s2, Start(n2))
  {
  }

  /** Every frame keeps the session invariant once a Start has established it;
      a Start re-establishes it from any state. */
  lemma HandlePacketKeepsSession(s: ServerState, f: Frame)
    requires InSession(s) || f.Start?
    ensures InSession(HandlePacket(s, f).state)
  {
  }

  /** Before the first Start, frames other than Start keep the count of
      accepted payloads equal to the next expected number. */
  lemma HandlePacketKeepsBeforeSession(s: ServerState, f: Frame)
    requires BeforeSession(s) && !f.Start?
    ensures BeforeSession(HandlePacket(s, f).state)
  {
  }

  /** Within a session, the ack sent for any Data frame is the number of
      payloads accepted so far, which is the highest sequence number of the
      contiguous run of Data frames 1, 2, ... received. */
  lemma DataAckIsCumulative(s: ServerState, n: int, p: string)
    requires InSession(s)
    ensures HandlePacket(s, Data(n, p)).reply == Some(Ack(|HandlePacket(s, Data(n, p)).state.buffer|))
    ensures |HandlePacket(s, Data(n, p)).state.buffer| == |s.buffer| + (if n == s.nextExpected then 1 else 0)
  {
  }

  // ---------------------------------------------------------------------------
  // Fault injection

  /** Which of the two test faults, if any, an injection fired. */
  datatype Fault = NoFault | AckCorrupted | ReplyDropped

  datatype Injected = Injected(state: ServerState, reply: Option<Frame>, fault: Fault)

  /** The fault injector around the reply path. It corrupts the ack number
      the first time it equals `AckErrorFrame`, and otherwise suppresses the
      reply the first time its number equals `TimeoutErrorFrame`; each fault
      disarms itself when it fires. */
  function Inject(s: ServerState, response: Frame): (r: Injected)
    ensures r.fault == AckCorrupted <==> s.ackErrorArmed && response.number == AckErrorFrame
    ensures r.fault == ReplyDropped <==>
      !(s.ackErrorArmed && response.number == AckErrorFrame)
      && s.timeoutErrorArmed && response.number == TimeoutErrorFrame
    ensures r.fault == AckCorrupted ==>
      r.reply == Some(response.(number := SeqErrorNum)) && r.state == s.(ackErrorArmed := false)
    ensures r.fault == ReplyDropped ==>
      r.reply == None && r.state == s.(timeoutErrorArmed := false)
    ensures r.fault == NoFault ==> r.reply == Some(response) && r.state == s
    ensures r.state.ackErrorArmed ==> s.ackErrorArmed
    ensures r.state.timeoutErrorArmed ==> s.timeoutErrorArmed
  {
    var n := response.number;
    if s.ackErrorArmed && n == AckErrorFrame then
      Injected(s.(ackErrorArmed := false), Some(response.(number := SeqErrorNum)), AckCorrupted)
    else if s.timeoutErrorArmed && n == TimeoutErrorFrame then
      Injected(s.(timeoutErrorArmed := false), None, ReplyDropped)
    else
      Injected(s, Some(response), NoFault)
  }

  /** The injector never changes the session itself, only its two flags, and
      a fault that fired is disarmed. */
  lemma InjectOnlyDisarms(s: ServerState, response: Frame)
    ensures Inject(s, response).state.buffer == s.buffer
    ensures Inject(s, response).state.nextExpected == s.nextExpected
    ensures Inject(s, response).state.exiting == s.exiting
    ensures Inject(s, response).fault == AckCorrupted ==> !Inject(s, response).state.ackErrorArmed
    ensures Inject(s, response).fault == ReplyDropped ==> !Inject(s, response).state.timeoutErrorArmed
  {
  }

  // ---------------------------------------------------------------------------
  // The serve loop

  /** Why the serve loop stops abnormally: the injector subscripts the reply,
      and there is none for an Ack or unknown frame. */
  datatype Crash = NoReplyToInspect

  /** One turn of the serve loop after decoding: handle the frame, then pass
      the reply through the injector. */
  datatype StepOut = StepOut(state: ServerState, reply: Option<Frame>, written: Option<seq<string>>, fault: Fault)

  function Step(s: ServerState, f: Frame): (r: Result<StepOut, Crash>)
    ensures r.Failure? <==> f.Ack? || f.Unknown?
    ensures r.Success? ==>
      var h := HandlePacket(s, f);
      && r.value.state.buffer == h.state.buffer
      && r.value.state.nextExpected == h.state.nextExpected
      && r.value.state.exiting == h.state.exiting
      && r.value.written == h.written
      && (r.value.fault == NoFault ==> r.value.reply == h.reply)
      && (r.value.fault == ReplyDropped ==> r.value.reply == None)
  {
    var h := HandlePacket(s, f);
    match h.reply
    case None => Failure(NoReplyToInspect)
    case Some(response) =>
      var i := Inject(h.state, response);
      Success(StepOut(i.state, i.reply, h.written, i.fault))
  }

  /** What a run of the serve loop over a sequence of inbound frames leaves:
      the final state, the replies actually sent, the fault fired at each
      step, the output written on Stop, whether it crashed, and how many
      frames it read. */
  datatype Transcript = Transcript(
    state: ServerState,
    replies: seq<Frame>,
    faults: seq<Fault>,
    written: Option<seq<string>>,
    crashed: bool,
    consumed: nat
  )

  function OptionToSeq(o: Option<Frame>): seq<Frame>
  {
    match o
    case None => []
    case Some(f) => [f]
  }

  /** The serve loop: read frames until a Stop has been handled. */
  function Serve(s: ServerState, frames: seq<Frame>): (t: Transcript)
    ensures t.consumed <= |frames|
    ensures |t.faults| <= t.consumed
    ensures !t.crashed && t.consumed < |frames| ==> t.state.exiting
    ensures s.exiting ==> t == Transcript(s, [], [], None, false, 0)
    decreases |frames|
  {
    if |frames| == 0 || s.exiting then Transcript(s, [], [], None, false, 0)
    else
      match Step(s, frames[0])
      case Failure(_) => Transcript(s, [], [], None, true, 1)
      case Success(o) =>
        var t := Serve(o.state, frames[1..]);
        Transcript(t.state, OptionToSeq(o.reply) + t.replies, [o.fault] + t.faults,
                   if t.written.Some? then t.written else o.written,
                   t.crashed, t.consumed + 1)
  }

  /** The number of times `fault` fired in a sequence of steps. */
  function CountFault(faults: seq<Fault>, fault: Fault): nat
  {
    if |faults| == 0 then 0
    else (if faults[0] == fault then 1 else 0) + CountFault(faults[1..], fault)
  }

  predicate NoStart(frames: seq<Frame>)
  {
    forall i :: 0 <= i < |frames| ==> !frames[i].Start?
  }

  /** Each fault fires at most once per session: without an intervening
      Start frame, a fault that is disarmed stays disarmed. */
  lemma {:induction false} FaultsFireOncePerSession(s: ServerState, frames: seq<Frame>)
    requires NoStart(frames)
    ensures CountFault(Serve(s, frames).faults, AckCorrupted) <= (if s.ackErrorArmed then 1 else 0)
    ensures CountFault(Serve(s, frames).faults, ReplyDropped) <= (if s.timeoutErrorArmed then 1 else 0)
    ensures Serve(s, frames).state.ackErrorArmed ==> s.ackErrorArmed
    ensures Serve(s, frames).state.timeoutErrorArmed ==> s.timeoutErrorArmed
    decreases |frames|
  {
    if |frames| == 0 || s.exiting {
    } else {
      var r := Step(s, frames[0]);
      if r.Success? {
        var o := r.value;
        var h := HandlePacket(s, frames[0]);
        var i := Inject(h.state, h.reply.value);
        assert o.state == i.state && o.fault == i.fault;
        assert NoStart(frames[1..]) by {
          forall k | 0 <= k < |frames[1..]| ensures !frames[1..][k].Start? {
            assert frames[1..][k] == frames[k + 1];
          }
        }
        FaultsFireOncePerSession(o.state, frames[1..]);
        var t := Serve(o.state, frames[1..]);
        assert Serve(s, frames).faults == [o.fault] + t.faults;
        assert ([o.fault] + t.faults)[1..] == t.faults;
      }
    }
  }

  /** Once a Start frame has been served, the session invariant holds after
      every later frame, whatever they are. */
  lemma {:induction false} ServeKeepsSession(s: ServerState, frames: seq<Frame>)
    requires InSession(s)
    ensures InSession(Serve(s, frames).state)
    decreases |frames|
  {
    if |frames| == 0 || s.exiting {
    } else {
      var r := Step(s, frames[0]);
      if r.Success? {
        HandlePacketKeepsSession(s, frames[0]);
        ServeKeepsSession(r.value.state, frames[1..]);
      }
    }
  }

  /** A receiver that has never seen a Start frame keeps its payload count
      equal to its next expected number: Data frames it accepts before any
      Start are numbered from 0. */
  lemma {:induction false} ServeBeforeSession(s: ServerState, frames: seq<Frame>)
    requires BeforeSession(s) && NoStart(frames)
    ensures BeforeSession(Serve(s, frames).state)
    decreases |frames|
  {
    if |frames| == 0 || s.exiting {
    } else {
      var r := Step(s, frames[0]);
      if r.Success? {
        HandlePacketKeepsBeforeSession(s, frames[0]);
        assert NoStart(frames[1..]) by {
          forall k | 0 <= k < |frames[1..]| ensures !frames[1..][k].Start? {
            assert frames[1..][k] == frames[k + 1];
          }
        }
        ServeBeforeSession(r.value.state, frames[1..]);
      }
    }
  }

  /** A session opened by a Start frame keeps the invariant to the end. */
  lemma StartedSessionKeepsInvariant(s: ServerState, n: int, frames: seq<Frame>)
    requires !s.exiting
    ensures InSession(Serve(s, [Start(n)] + frames).state)
  {
    var all := [Start(n)] + frames;
    var o := Step(s, Start(n)).value;
    assert InSession(o.state);
    assert all[1..] == frames;
    ServeKeepsSession(o.state, frames);
  }

  /** Within a session the replies never fall below the cumulative ack: once
      `nextExpected` exceeds `floor`, every reply to later Data frames, to
      Stop frames numbered at least `floor`, and every corrupted ack, is
      numbered at least `floor`. */
  lemma {:induction false} RepliesNeverBelow(s: ServerState, frames: seq<Frame>, floor: int)
    requires NoStart(frames)
    requires floor < s.nextExpected && floor <= SeqErrorNum
    requires forall i :: 0 <= i < |frames| && frames[i].Stop? ==> floor <= frames[i].number
    ensures forall i :: 0 <= i < |Serve(s, frames).replies| ==> floor <= Serve(s, frames).replies[i].number
    decreases |frames|
  {
    if |frames| == 0 || s.exiting {
    } else {
      var r := Step(s, frames[0]);
      if r.Success? {
        var o := r.value;
        var h := HandlePacket(s, frames[0]);
        assert o.reply.Some? ==> floor <= o.reply.value.number;
        assert floor < o.state.nextExpected;
        var rest := frames[1..];
        forall i | 0 <= i < |rest|
          ensures !rest[i].Start? && (rest[i].Stop? ==> floor <= rest[i].number)
        {
          assert rest[i] == frames[i + 1];
        }
        RepliesNeverBelow(o.state, rest, floor);
        var t := Serve(o.state, rest);
        assert Serve(s, frames).replies == OptionToSeq(o.reply) + t.replies;
      }
    }
  }

  /** The lowest number the receiver ever replies with is -1: the cumulative
      ack of a receiver that expects 0, since the expected number never goes
      below 0. This holds for any frames, Start included, as long as no Stop
      frame is numbered below -1. */
  lemma {:induction false} RepliesAtLeastMinusOne(s: ServerState, frames: seq<Frame>)
    requires forall i :: 0 <= i < |frames| && frames[i].Stop? ==> -1 <= frames[i].number
    ensures forall i :: 0 <= i < |Serve(s, frames).replies| ==> -1 <= Serve(s, frames).replies[i].number
    decreases |frames|
  {
    if |frames| == 0 || s.exiting {
    } else {
      var r := Step(s, frames[0]);
      if r.Success? {
        var o := r.value;
        assert o.reply.Some? ==> -1 <= o.reply.value.number;
        var rest := frames[1..];
        forall i | 0 <= i < |rest| && rest[i].Stop?
          ensures -1 <= rest[i].number
        {
          assert rest[i] == frames[i + 1];
        }
        RepliesAtLeastMinusOne(o.state, rest);
        assert Serve(s, frames).replies == OptionToSeq(o.reply) + Serve(o.state, rest).replies;
      }
    }
  }
}

=== FILE: session.dfy ===
/**
  Properties that join the two ends: what the receiver makes of the frames
  the sender builds, and how the sender reacts to the replies the receiver
  and its fault injector produce.
 */
module Session {
  import opened Wrappers
  import opened Frames
  import opened Server
  import opened Client

  /** Frames fed to the receiver in order after the Data frames for `done`
      have been accepted: the Data frames for `rest`, then the Stop frame. */
  lemma {:induction false} ServeDataThenStop(s: ServerState, done: seq<string>, rest: seq<string>)
    requires !s.exiting && s.buffer == done && s.nextExpected == |done| + 1
    ensures
      var t := Serve(s, DataRun(rest, |done| + 1) + [Stop(|done| + |rest| + 1)]);
      && t.state.buffer == done + rest
      && t.state.nextExpected == |done| + |rest| + 1
      && t.state.exiting
      && !t.crashed
      && t.written == Some(Dump(done + rest))
      && t.consumed == |rest| + 1
    decreases |rest|
  {
    var frames := DataRun(rest, |done| + 1) + [Stop(|done| + |rest| + 1)];
    if |rest| == 0 {
      assert frames == [Stop(|done| + 1)];
      assert done + rest == done;
      var o := Step(s, frames[0]).value;
      assert frames[1..] == [];
      assert Serve(o.state, []).written == None;
    } else {
      assert frames[0] == Data(|done| + 1, rest[0]);
      var o := Step(s, frames[0]).value;
      var done' := done + [rest[0]];
      assert o.state.buffer == done' && o.state.nextExpected == |done'| + 1 && !o.state.exiting;
      assert frames[1..] == DataRun(rest[1..], |done'| + 1) + [Stop(|done'| + |rest[1..]| + 1)];
      ServeDataThenStop(o.state, done', rest[1..]);
      assert done' + rest[1..] == done + rest;
    }
  }

  /** Delivered in order and without loss, the sender's frames leave the
      receiver holding exactly the records the sender read, in order, and
      writing them out capitalized; the session ends at the Stop frame and
      the receiver never crashes, whichever faults fire on the way. */
  lemma InOrderDeliveryAcceptsAll(s: ServerState, records: seq<string>)
    requires !s.exiting
    ensures
      var t := Serve(s, Populate(records));
      && t.state.buffer == records
      && t.state.buffer == Payloads(Populate(records))
      && InSession(t.state)
      && t.state.exiting
      && !t.crashed
      && t.written == Some(Dump(records))
      && t.consumed == |Populate(records)|
  {
    var frames := Populate(records);
    var o := Step(s, frames[0]).value;
    assert o.state.buffer == [] && o.state.nextExpected == 1 && !o.state.exiting;
    assert frames[1..] == DataRun(records, 1) + [Stop(|records| + 1)];
    ServeDataThenStop(o.state, [], records);
    assert [] + records == records;
    PopulateRoundTrip(records);
  }

  /** The replies the receiver sends, as the sender's poll outcomes. */
  function AsPolls(replies: seq<Frame>): (polls: seq<Poll>)
    ensures |polls| == |replies|
    ensures forall i :: 0 <= i < |replies| ==> polls[i] == Reply(replies[i])
  {
    seq(|replies|, i requires 0 <= i < |replies| => Reply(replies[i]))
  }

  /** The corrupted ack is always numbered ahead of a sender that has not
      reached it, so it takes the sender's resend path: the window is rewound
      to `pending` and `pending` stays where it was. */
  lemma CorruptedAckForcesResend(srv: ServerState, cli: ClientState, p: string)
    requires srv.ackErrorArmed && srv.nextExpected == AckErrorFrame && !srv.exiting
    requires cli.pending < SeqErrorNum
    ensures Step(srv, Data(AckErrorFrame, p)).Success?
    ensures Step(srv, Data(AckErrorFrame, p)).value.reply == Some(Ack(SeqErrorNum))
    ensures Step(srv, Data(AckErrorFrame, p)).value.fault == AckCorrupted
    ensures Receive(cli, Ack(SeqErrorNum)).pending == cli.pending
    ensures Receive(cli, Ack(SeqErrorNum)).toSend == cli.pending
  {
  }

  /** Once the receiver's cumulative ack has moved past the sender's
      `pending`, the sender can never advance again: whatever Data frames and
      late Stop frames the receiver is then given, every reply it sends is
      numbered ahead of `pending`, which the sender treats as a sequencing
      error. This is how the corrupted Ack(2) stalls a lossless session: the
      receiver has already accepted frames 2 and 3 while the sender still
      waits for 2. */
  lemma StalledAfterReceiverMovesAhead(srv: ServerState, frames: seq<Frame>, cli: ClientState)
    requires NoStart(frames)
    requires 0 <= cli.pending && 0 <= cli.toSend && !Finished(cli)
    requires cli.pending + 1 < srv.nextExpected && cli.pending < SeqErrorNum
    requires forall i :: 0 <= i < |frames| && frames[i].Stop? ==> cli.pending < frames[i].number
    ensures
      var r := Run(cli, AsPolls(Serve(srv, frames).replies));
      r.outcome == Waiting && r.state.pending == cli.pending
  {
    var replies := Serve(srv, frames).replies;
    RepliesNeverBelow(srv, frames, cli.pending + 1);
    var polls := AsPolls(replies);
    assert forall i :: 0 <= i < |polls| ==> polls[i].Reply? && polls[i].frame.number > cli.pending;
    AheadAcksNeverAdvance(cli, polls);
  }

  /** Driven by whatever the receiver replies, a sender whose `pending` and
      send position lie within its list keeps them there and never indexes
      outside it, because no reply is numbered below -1. */
  lemma SenderStaysInList(srv: ServerState, frames: seq<Frame>, cli: ClientState)
    requires forall i :: 0 <= i < |frames| && frames[i].Stop? ==> -1 <= frames[i].number
    requires InList(cli)
    ensures
      var r := Run(cli, AsPolls(Serve(srv, frames).replies));
      InList(r.state) && r.outcome != IndexError
  {
    RepliesAtLeastMinusOne(srv, frames);
    var polls := AsPolls(Serve(srv, frames).replies);
    assert RepliesAtLeast(polls, -1);
  }
}

=== FILE: wrappers.dfy ===
/** Option and Result, shared by both ends of the protocol. */
module Wrappers {

  /** A value that may be absent, such as a reply the receiver does not send. */
  datatype Option<+T> = None | Some(value: T)

  /** The outcome of a step that can fail, carrying the failure's reason. */
  datatype Result<+R, +E> = Success(value: R) | Failure(error: E)
}
